=== FILE: README.md ===
# termutils: the terminal-size query, modelled in Dafny

termutils' `tsize` asks an xterm-compatible terminal for its size and tells
the tty driver. The work happens in `src/termio_raw.c`, which does three things:

1. `termio_init` puts the terminal into raw mode and saves the settings it
   found.
2. `termio_termsize_setup` writes the window-manipulation request
   `ESC [ 1 8 t` and reads the reply. The reply is `CSI 8 ; rows ; cols t`,
   where the CSI may be the 7-bit `ESC [` or the 8-bit 0x9B. On success it
   sends the size to the driver with `TIOCSWINSZ`.
3. `termio_finish` writes the saved settings back.

This project models those functions and proves what they accept, what they
report and what they leave behind.

Layout:

- `options.dfy`: module `Options`, the `Option` type.
- `reply.dfy`: module `Reply`. The reply protocol as pure functions over a
  *stream of read outcomes*:
  - element k of the stream is what the k-th `timed_readchar` call returns,
    either a byte or `None` (a timeout or a failed `select`/`read`);
  - every call consumes one element, and past the end every read times out;
  - `CsiSpec` and `ExpectSpec` specify `expect_csi` and `expect`;
  - `ScanFields` specifies the ROWS/COLS/DONE loop;
  - `ParseReply` is everything read after the query was written;
  - `EncodeReply` builds a well-formed reply.
- `reply_lemmas.dfy`: module `ReplyLemmas`. The lemmas about `ParseReply`:
  - the round trip;
  - its converse (nothing else is accepted);
  - the rejection cases;
  - the agreement of the two CSI forms;
  - that unsigned digit-by-digit accumulation computes the decimal value
    modulo 2^32.
- `termios.dfy`: module `Termios`. `struct termios` with 32-bit flag words,
  and `RawMode`, the flag transform of `termio_init`.
- `termio_raw.dfy`: module `TermioRaw`. The imperative part:
  - `Tty` is the device: the outcomes of its system calls, its settings, its
    window size, its read position and the bytes written to it;
  - `Session` is `struct termio_ctx_s`. Its reading methods `TimedReadChar`,
    `ExpectCsi`, `Expect`, `ReadFields` and `ReadReply` are proved against
    the functions of `Reply`. `TermsizeSetup` is proved against `ParseReply`,
    `WriteResult` and `WinSizeOf`. `Finish` is proved to write back the
    settings the session saved;
  - `Init` is `termio_init`;
  - `QueryAndRestore` is the init/setup/finish sequence of `src/tsize.c`.

Integer widths are explicit:

- `term_rows` and `term_cols` are `unsigned`, so the accumulators wrap modulo
  2^32 (`Reply.u32`).
- The `winsize` fields are `unsigned short`, so the size sent to the driver is
  cut to 16 bits (`TermioRaw.u16`).
- The flag constants are Linux's; the source uses the Linux-only
  `TCGETS`/`TCSETS` ioctls.

`termio_termsize_setup` writes `sizeof termsize_query` bytes. The request
`ESC [ 1 8 t` is five bytes, and `sizeof` of the string literal adds its
terminating NUL, so the model writes six bytes, the last one 0x00.

## Model

| member | source | states |
|---|---|---|
| TermioRaw.Session.TimedReadChar | src/termio_raw.c:35-54 | returns the next read outcome (a byte, or None for a timeout or a failed select/read) and consumes exactly one outcome |
| Reply.CsiSpec | src/termio_raw.c:61-76 | accepts exactly the streams starting with 0x9B or ESC `[`; it consumes 1 byte for the 8-bit form and 2 for ESC `[`; on failure it consumes 2 reads after an ESC and 1 otherwise |
| TermioRaw.Session.ExpectCsi | src/termio_raw.c:61-76 | returns what CsiSpec decides on the remaining input and advances the read position by exactly the reads CsiSpec counts |
| Reply.ExpectSpec | src/termio_raw.c:83-95 | succeeds exactly when the next reads deliver the bytes of `m` in order, and then it has made exactly \|m\| reads |
| ReplyLemmas.ExpectStopsAtMismatch | src/termio_raw.c:90-92 | a failed expect stops at the first read n that is a timeout or a byte other than m[n-1]; all earlier reads matched, and no read after it is made |
| TermioRaw.Session.Expect | src/termio_raw.c:83-95 | the loop returns ExpectSpec's verdict and consumes exactly ExpectSpec's read count |
| Reply.ScanFields | src/termio_raw.c:175-197 | the loop reads at least once; when it ends in DONE, its last read delivered the `t`, and from ROWS it took at least the `;` and the `t` |
| TermioRaw.Session.ReadFields | src/termio_raw.c:175-197 | the while loop yields a size exactly when ScanFields ends in DONE; the size is ScanFields' two accumulators, and the loop consumes ScanFields' read count |
| TermioRaw.Session.ReadReply | src/termio_raw.c:171-197 | expect_csi, then expect of `8;`, then the loop, give the size ParseReply gives and consume exactly ParseReply's read count |
| Reply.ParseSizeReport | src/termio_raw.c:173-197 | the stage after the CSI reads at least once; it reports a size only after reading `8;`, and its last read is the closing `t` |
| Reply.ParseReply | src/termio_raw.c:171-197 | the reply parser reads at least once. It reports a size only for input that starts with a CSI in either form, after at least the five bytes of the shortest report, and its last read is the closing `t`. The full meaning is in the ReplyLemmas rows below |
| Reply.Accumulate | src/termio_raw.c:185-193 | one `v*10 + (ch-'0')` step in unsigned arithmetic: exact while the value fits in 32 bits, and otherwise off from it by a multiple of 2^32 |
| TermioRaw.WinSizeOf | src/termio_raw.c:198-200 | the winsize for a parsed size has zero pixel fields, and its rows and columns are the parsed values modulo 2^16 (unchanged when they fit in 16 bits) |
| TermioRaw.WriteResult | src/termio_raw.c:168 | write returns -1 exactly on an error, otherwise at most the bytes offered and the room available; it returns the full count exactly when there is room for all of it |
| TermioRaw.Session.TermsizeSetup | src/termio_raw.c:155-206 | appends to the device output the part of the 6-byte query that write accepts. A short or failed write returns -1 with nothing read and the window size and `*sz` untouched. Otherwise it consumes exactly ParseReply's read count and returns 0 iff ParseReply yields a size. On failure the window size and `*sz` are untouched. On success the window size becomes the size cut to 16 bits with zero pixel fields (unchanged if the ioctl fails) and a non-null `*sz` gets the parsed pair |
| ReplyLemmas.AccumulateSnoc | src/termio_raw.c:185 | accumulating d then c is one more `v*10 + (c-'0')` step after d |
| ReplyLemmas.AccumulateIsDecimal | src/termio_raw.c:185-193 | the unsigned `v*10 + (ch-'0')` accumulation from 0 over a digit string equals its decimal value modulo 2^32 |
| ReplyLemmas.ScanDigits | src/termio_raw.c:183-193 | a run of digits feeds only the accumulator of the current state, one read per digit |
| ReplyLemmas.ScanFieldsRoundTrip | src/termio_raw.c:175-197 | D1 `;` D2 `t` takes the loop from ROWS to DONE with the two accumulated values, and nothing after the `t` is read |
| ReplyLemmas.ScanColsComplete | src/termio_raw.c:186-195 | from COLS, the loop ends in DONE only after digits followed by `t`, and it read exactly those |
| ReplyLemmas.ScanRowsComplete | src/termio_raw.c:177-195 | from ROWS, the loop ends in DONE only after digits, `;`, digits, `t`, and it read exactly those |
| ReplyLemmas.ParseCsi | src/termio_raw.c:171-173 | after a CSI in either form, the rest of the reply is parsed by the `8;` stage, shifted by the CSI's length |
| ReplyLemmas.ParseAfterPrefix | src/termio_raw.c:171-176 | after a CSI and `8;`, the outcome is that of the loop started in ROWS with both fields 0 |
| ReplyLemmas.ParseReplyRoundTrip | src/termio_raw.c:171-197 | a reply CSI `8;` D1 `;` D2 `t`, in either CSI form and with either field possibly empty, yields (D1 mod 2^32, D2 mod 2^32) and consumes exactly the reply, nothing after the `t` |
| ReplyLemmas.ParseReplyComplete | src/termio_raw.c:171-197 | conversely, whenever a size is reported, the stream starts with such a reply, the size is its decoded fields and exactly the reply was read |
| ReplyLemmas.SizeReportComplete | src/termio_raw.c:173-197 | the `8;` stage reports a size only for `8;` D1 `;` D2 `t`, read to its end |
| ReplyLemmas.ParseReplyAcceptsExactly | src/termio_raw.c:171-197 | a size is reported if and only if the input begins with a well-formed window-size report |
| ReplyLemmas.CsiFormsAgree | src/termio_raw.c:68-74 | the 8-bit CSI and ESC `[` give the same result for the same remainder; the 7-bit form reads one byte more |
| ReplyLemmas.RejectsBadRowsByte | src/termio_raw.c:178-184 | in ROWS, a byte that is neither a digit nor `;` (a `t` included) fails the query at that byte |
| ReplyLemmas.RejectsBadColsByte | src/termio_raw.c:186-192 | in COLS, a byte that is neither a digit nor `t` (a second `;` included) fails the query at that byte |
| ReplyLemmas.ScanTimeout | src/termio_raw.c:177-197 | a timeout anywhere in the fields, up to and including the place of the `t`, ends the loop there outside DONE |
| ReplyLemmas.RejectsTimeout | src/termio_raw.c:171-197 | a timeout or read failure anywhere in a well-formed reply before its end fails the query, and that read is the last one made |
| ReplyLemmas.Reply24By80 | src/termio_raw.c:175-197 | `CSI 8;24;80t` in either form reports 24 rows and 80 columns |
| ReplyLemmas.EmptyFieldsReportZero | src/termio_raw.c:175-197 | `CSI 8;;t` reports a 0 by 0 size |
| Termios.RawMode | src/termio_raw.c:126-130 | IGNBRK, BRKINT, PARMRK, ISTRIP, INLCR, IGNCR, ICRNL and IXON are cleared, and so are OPOST and ICANON, ECHO, ISIG and IEXTEN. The CSIZE field is CS8 and PARENB is clear. Every other flag bit, the line discipline and the control characters are unchanged |
| TermioRaw.Session.constructor | src/termio_raw.c:121-125 | the zeroed context holds the copy of the settings read from the device |
| TermioRaw.Init | src/termio_raw.c:111-140 | returns a context exactly when the device is a terminal and TCGETS, the allocation and TCSETS all succeed. On failure the device settings are unchanged. On success the context saves the settings found, the device gets RawMode of them, and the timeout is 1 second |
| TermioRaw.Session.Finish | src/termio_raw.c:212-218 | writes back exactly the saved settings, whatever happened in between. If that ioctl fails, the failure is ignored and the device keeps its current settings. The context is not used afterwards |
| TermioRaw.QueryAndRestore | src/tsize.c:18-22 | init, setup and finish leave the device with the settings it had before, except when raw mode was entered and the restore in finish failed: then the device stays in RawMode of its original settings. The result is 0 or -1, and 0 iff init, the write and the parse all succeed; `*sz` then holds the parsed size, and on -1 it is left alone |

## Left out

- Time: the `select` timeout, the `fd_set` and `timeval` handling, and the shrinking of the shared `tv` by Linux's `select` across calls. A timeout is simply a `None` element of the input stream; `Session.timeoutSec` records only the 1 second set by `termio_init`.
- System calls: `isatty`, `ioctl`, `write`, `select` and `read` are reduced to outcomes fixed in `Tty`. These are the tty check, TCGETS, the TCSETS of `termio_init` (`setAttrFails`), the TCSETS of `termio_finish` (`restoreFails`), TIOCSWINSZ, the bytes a write accepts (negative for an error) and the read outcomes. Each outcome is fixed per device, not per call.
- Endless replies: the input stream is finite and past its end every read times out, so a terminal that sends digits forever, on which the ROWS/COLS loop never ends, is not modelled; every modelled call terminates.
- `tcdrain` only waits for output to drain and is modelled as doing nothing.
- `malloc` and `free`: an allocation failure is the `allocFails` parameter of `Init`. Freeing is the ghost `open` flag, which `Finish` clears and every session method requires, so "not used after finish" is a precondition.
- The file descriptor number: each `Tty` object is one descriptor.
- `src/tsize.c` `main` is CLI glue. Its call sequence is `QueryAndRestore`, which uses the `*sz` argument where `main` passes NULL. `main` also discards the setup result and always exits with 0, while `QueryAndRestore` returns that result (or -1 when init fails).
- The split of reading: the C code reads the reply inline in `termio_termsize_setup`, and the model moves that into `Session.ReadReply` and `Session.ReadFields`. The `return -1` on a bad byte in COLS becomes ReadFields returning no size, which `TermsizeSetup` turns into the same -1.

=== FILE: options.dfy ===
/** The optional value used for read outcomes and parse results. */
module Options {

  datatype Option<+T> = None | Some(value: T)

}

=== FILE: reply.dfy ===
/**
 * The terminal-size reply protocol of termio_raw.c as pure functions.
 *
 * The terminal is seen as a stream of read outcomes: element k is what the
 * k-th call of timed_readchar returns, `Some(b)` for a byte and `None` for a
 * timeout or a failed select/read.  Past the end of the stream every read
 * times out.  Each read consumes one outcome, whatever it is, so "consumed"
 * below counts read attempts.
 */
module Reply {
  import opened Options

  /** The width of C's `unsigned` on the platforms the source targets. */
  const U32_MODULUS: int := 0x1_0000_0000
  newtype u32 = x: int | 0 <= x < 0x1_0000_0000
  /** C's `unsigned char`. */
  newtype byte = x: int | 0 <= x < 0x100

  const ESC: byte := 0x1B
  const LEFT_BRACKET: byte := 0x5B
  /** The single-byte (8-bit) Control Sequence Introducer. */
  const CSI_8BIT: byte := 0x9B
  const SEMICOLON: byte := 0x3B
  const LETTER_T: byte := 0x74
  const DIGIT_ZERO: byte := 0x30
  const DIGIT_NINE: byte := 0x39

  /**
   * `termsize_query`: ESC [ 1 8 t, the xterm/dtterm "report window size in
   * characters" request.  `sizeof` of the string literal counts its
   * terminating NUL, so six bytes are written.
   */
  const TERMSIZE_QUERY: seq<byte> := [0x1B, 0x5B, 0x31, 0x38, 0x74, 0x00]

  /** `response`: the `8;` that opens a window-size report. */
  const RESPONSE_PREFIX: seq<byte> := [0x38, 0x3B]

  /** `struct termio_termsize_s`. */
  datatype TermSize = TermSize(rows: u32, cols: u32)

  type Stream = seq<Option<byte>>

  /** The outcome of the next read. */
  function Next(s: Stream): Option<byte> {
    if |s| > 0 then s[0] else None
  }

  /** The stream left after `n` reads. */
  function Skip(s: Stream, n: nat): Stream {
    if n <= |s| then s[n..] else []
  }

  /** The next reads deliver exactly the bytes of `m`, in order. */
  predicate StartsWith(s: Stream, m: seq<byte>) {
    |m| <= |s| && forall k :: 0 <= k < |m| ==> s[k] == Some(m[k])
  }

  /** A stream that delivers the bytes `b` without a timeout. */
  function Lift(b: seq<byte>): Stream {
    seq(|b|, k requires 0 <= k < |b| => Some(b[k]))
  }

  predicate IsDigit(c: byte) {
    DIGIT_ZERO <= c <= DIGIT_NINE
  }

  predicate AllDigits(d: seq<byte>) {
    forall k :: 0 <= k < |d| ==> IsDigit(d[k])
  }

  function DigitValue(c: byte): int
    requires IsDigit(c)
  {
    (c - DIGIT_ZERO) as int
  }

  /** The reference value of a digit string, most significant digit first. */
  function Decimal(d: seq<byte>): nat
    requires AllDigits(d)
  {
    if d == [] then 0 else Decimal(d[..|d| - 1]) * 10 + DigitValue(d[|d| - 1])
  }

  /**
   * One step of the accumulator: `v * 10 + (ch - '0')` in unsigned arithmetic.
   * It is exact while the value fits in 32 bits, and otherwise wraps: the
   * result differs from the exact value by a multiple of 2^32.
   */
  function Accumulate(v: u32, c: byte): (r: u32)
    requires IsDigit(c)
    ensures v as int * 10 + DigitValue(c) < U32_MODULUS ==> r as int == v as int * 10 + DigitValue(c)
    ensures (v as int * 10 + DigitValue(c) - r as int) % U32_MODULUS == 0
  {
    ((v as int * 10 + DigitValue(c)) % U32_MODULUS) as u32
  }

  /** The accumulator after the digits `d`, starting from `v`. */
  function AccumulateAll(v: u32, d: seq<byte>): u32
    requires AllDigits(d)
    decreases d
  {
    if d == [] then v else AccumulateAll(Accumulate(v, d[0]), d[1..])
  }

  // ---------------------------------------------------------------------
  // expect_csi and expect

  /** The outcome of a matching step: did it match, and how many reads it made. */
  datatype Match = Match(ok: bool, consumed: nat)

  datatype CsiForm = SevenBit | EightBit

  /** The two spellings of a CSI: ESC [ (section 5.4 of ECMA-48) or 0x9B. */
  function CsiBytes(f: CsiForm): seq<byte> {
    if f == EightBit then [CSI_8BIT] else [ESC, LEFT_BRACKET]
  }

  /**
   * expect_csi: one read, and a second only after an ESC.  It accepts exactly
   * the streams that start with a CSI in either form, and then it has read
   * exactly that CSI; a rejection reads the first outcome, and the second
   * one only when the first was ESC.
   */
  function CsiSpec(s: Stream): (r: Match)
    ensures r.ok <==> StartsWith(s, CsiBytes(EightBit)) || StartsWith(s, CsiBytes(SevenBit))
    ensures r.ok ==> r.consumed == if StartsWith(s, CsiBytes(EightBit)) then 1 else 2
    ensures !r.ok ==> r.consumed == if Next(s) == Some(ESC) then 2 else 1
  {
    match Next(s)
    case None => Match(false, 1)
    case Some(c) =>
      if c == CSI_8BIT then Match(true, 1)
      else if c != ESC then Match(false, 1)
      else Match(Next(Skip(s, 1)) == Some(LEFT_BRACKET), 2)
  }

  /**
   * expect(m): reads while the bytes match `m`.  It succeeds exactly when the
   * stream starts with `m`, having read |m| outcomes (where it stops on a
   * failure is ReplyLemmas.ExpectStopsAtMismatch).
   */
  function ExpectSpec(s: Stream, m: seq<byte>): (r: Match)
    ensures r.ok <==> StartsWith(s, m)
    ensures r.ok ==> r.consumed == |m|
    decreases m
  {
    if m == [] then Match(true, 0)
    else if Next(s) == Some(m[0]) then
      var rest := ExpectSpec(Skip(s, 1), m[1..]);
      Match(rest.ok, rest.consumed + 1)
    else Match(false, 1)
  }

  // ---------------------------------------------------------------------
  // The ROWS/COLS/DONE loop of termio_termsize_setup

  datatype ParseState = Rows | Cols | Done

  /** Where the loop stopped, the two accumulators, and the reads it made. */
  datatype Scan = Scan(state: ParseState, rows: u32, cols: u32, consumed: nat)

  function Later(sc: Scan, n: nat): Scan {
    sc.(consumed := sc.consumed + n)
  }

  /**
   * The loop, from `state` with the accumulators `rows` and `cols`.  It reads
   * at least once, and when it ends in Done its last read delivered the `t`;
   * from Rows that takes at least the `;` and the `t`.
   */
  function ScanFields(s: Stream, state: ParseState, rows: u32, cols: u32): (r: Scan)
    requires state != Done
    ensures 1 <= r.consumed
    ensures r.state == Done ==> r.consumed <= |s| && s[r.consumed - 1] == Some(LETTER_T)
    ensures state == Rows && r.state == Done ==> 2 <= r.consumed
    decreases |s|
  {
    match Next(s)
    case None => Scan(state, rows, cols, 1)
    case Some(ch) =>
      if state == Rows then
        if ch == SEMICOLON then Later(ScanFields(s[1..], Cols, rows, cols), 1)
        else if !IsDigit(ch) then Scan(Rows, rows, cols, 1)
        else Later(ScanFields(s[1..], Rows, Accumulate(rows, ch), cols), 1)
      else
        if ch == LETTER_T then Scan(Done, rows, cols, 1)
        else if !IsDigit(ch) then Scan(Cols, rows, cols, 1)
        else Later(ScanFields(s[1..], Cols, rows, Accumulate(cols, ch)), 1)
  }

  // ---------------------------------------------------------------------
  // The whole reply

  /** The reported size, if any, and the reads made to get it. */
  datatype Parsed = Parsed(size: Option<TermSize>, consumed: nat)

  function Shift(p: Parsed, n: nat): Parsed {
    p.(consumed := p.consumed + n)
  }

  /**
   * The part of the reply after the CSI: `8;`, then the two fields.  It reads
   * at least once; a size is reported only after `8;` was read, and the last
   * read delivered the `t` that closes the report.
   */
  function ParseSizeReport(s: Stream): (r: Parsed)
    ensures 1 <= r.consumed
    ensures r.size.Some? ==> StartsWith(s, RESPONSE_PREFIX) && |RESPONSE_PREFIX| + 2 <= r.consumed <= |s|
                             && s[r.consumed - 1] == Some(LETTER_T)
  {
    var pre := ExpectSpec(s, RESPONSE_PREFIX);
    if !pre.ok then Parsed(None, pre.consumed)
    else
      var sc := ScanFields(Skip(s, pre.consumed), Rows, 0, 0);
      Parsed(if sc.state == Done then Some(TermSize(sc.rows, sc.cols)) else None,
             pre.consumed + sc.consumed)
  }

  /**
   * What termio_termsize_setup reads once its query is written.  It reads at
   * least once; a size is reported only for input that starts with a CSI,
   * after at least the five bytes of the shortest report (`0x9B 8 ; ; t`),
   * and the last read delivered the closing `t`.
   */
  function ParseReply(s: Stream): (r: Parsed)
    ensures 1 <= r.consumed
    ensures r.size.Some? ==> (StartsWith(s, CsiBytes(EightBit)) || StartsWith(s, CsiBytes(SevenBit)))
                             && 5 <= r.consumed <= |s| && s[r.consumed - 1] == Some(LETTER_T)
  {
    var csi := CsiSpec(s);
    if !csi.ok then Parsed(None, csi.consumed)
    else Shift(ParseSizeReport(Skip(s, csi.consumed)), csi.consumed)
  }

  /** A well-formed reply: CSI `8;` D1 `;` D2 `t`. */
  function EncodeReply(f: CsiForm, d1: seq<byte>, d2: seq<byte>): seq<byte> {
    CsiBytes(f) + RESPONSE_PREFIX + d1 + [SEMICOLON] + d2 + [LETTER_T]
  }

  /** The size a well-formed reply denotes, each field reduced modulo 2^32. */
  function Denoted(d1: seq<byte>, d2: seq<byte>): TermSize
    requires AllDigits(d1) && AllDigits(d2)
  {
    TermSize((Decimal(d1) % U32_MODULUS) as u32, (Decimal(d2) % U32_MODULUS) as u32)
  }
}

=== FILE: reply_lemmas.dfy ===
/**
 * What the reply parser of termio_termsize_setup accepts and what it decodes
 * to: the round trip from a well-formed reply, the converse (nothing else is
 * accepted), the rejection cases, and the agreement of the two CSI forms.
 */
module ReplyLemmas {
  import opened Options
  import opened Reply

  // ---------------------------------------------------------------------
  // Streams

  lemma {:induction false} LiftAppend(a: seq<byte>, b: seq<byte>)
    ensures Lift(a + b) == Lift(a) + Lift(b)
    decreases a
  {
    if a != [] {
      assert (a + b)[1..] == a[1..] + b;
      LiftAppend(a[1..], b);
    }
  }

  lemma SkipLifted(a: seq<byte>, t: Stream)
    ensures Skip(Lift(a) + t, |a|) == t
  {
    assert (Lift(a) + t)[|a|..] == t;
  }

  /** A stream that starts with `m` is `m` followed by what is left. */
  lemma StartsWithSplits(s: Stream, m: seq<byte>)
    requires StartsWith(s, m)
    ensures s == Lift(m) + Skip(s, |m|)
  {
    assert forall k :: 0 <= k < |m| ==> Lift(m)[k] == s[k];
  }

  lemma StartsWithAppend(s: Stream, a: seq<byte>, b: seq<byte>)
    requires StartsWith(s, a) && StartsWith(Skip(s, |a|), b)
    ensures StartsWith(s, a + b)
  {
    forall k | 0 <= k < |a + b|
      ensures s[k] == Some((a + b)[k])
    {
      if k >= |a| {
        assert Skip(s, |a|)[k - |a|] == s[k];
      }
    }
  }

  /** A well-formed reply is its CSI, then `8;`, then the two fields and the `t`. */
  lemma EncodeReplyParts(f: CsiForm, d1: seq<byte>, d2: seq<byte>)
    ensures EncodeReply(f, d1, d2) == CsiBytes(f) + (RESPONSE_PREFIX + (d1 + [SEMICOLON] + d2 + [LETTER_T]))
  {
  }

  /**
   * A failed expect stops at the first read that does not deliver the
   * expected byte, after reading every matching byte before it, and reads
   * nothing more.
   */
  lemma {:induction false} ExpectStopsAtMismatch(s: Stream, m: seq<byte>)
    requires !ExpectSpec(s, m).ok
    ensures var n := ExpectSpec(s, m).consumed;
            1 <= n <= |m| && StartsWith(s, m[..n - 1]) && Next(Skip(s, n - 1)) != Some(m[n - 1])
    decreases m
  {
    if Next(s) == Some(m[0]) {
      var t := Skip(s, 1);
      ExpectStopsAtMismatch(t, m[1..]);
      var n := ExpectSpec(t, m[1..]).consumed;
      assert Skip(t, n - 1) == Skip(s, n);
      assert m[1..][..n - 1] == m[1..n];
      assert s[0] == Some(m[0]);
      forall k | 0 <= k < n
        ensures s[k] == Some(m[..n][k])
      {
        if k > 0 {
          assert t[k - 1] == s[k];
        }
      }
    }
  }

  // ---------------------------------------------------------------------
  // The accumulators compute the decimal value modulo 2^32

  lemma {:induction false} AccumulateSnoc(v: u32, d: seq<byte>, c: byte)
    requires AllDigits(d) && IsDigit(c)
    ensures AccumulateAll(v, d + [c]) == Accumulate(AccumulateAll(v, d), c)
    decreases d
  {
    if d == [] {
      assert d + [c] == [c];
    } else {
      assert (d + [c])[1..] == d[1..] + [c];
      AccumulateSnoc(Accumulate(v, d[0]), d[1..], c);
    }
  }

  lemma {:induction false} ModMultiple(k: nat, y: int)
    ensures (k * U32_MODULUS + y) % U32_MODULUS == y % U32_MODULUS
    decreases k
  {
    if k > 0 {
      ModMultiple(k - 1, y);
      assert k * U32_MODULUS + y == ((k - 1) * U32_MODULUS + y) + U32_MODULUS;
    }
  }

  /** Reducing before `* 10 + x` gives the same residue as reducing after. */
  lemma ModStep(a: nat, x: nat)
    ensures ((a % U32_MODULUS) * 10 + x) % U32_MODULUS == (a * 10 + x) % U32_MODULUS
  {
    var q := a / U32_MODULUS;
    var r := a % U32_MODULUS;
    assert a == q * U32_MODULUS + r;
    assert a * 10 + x == (q * 10) * U32_MODULUS + (r * 10 + x);
    ModMultiple(q * 10, r * 10 + x);
  }

  /**
   * Accumulating digit by digit in 32-bit unsigned arithmetic, from 0, yields
   * the decimal value of the digits reduced modulo 2^32.
   */
  lemma {:induction false} AccumulateIsDecimal(d: seq<byte>)
    requires AllDigits(d)
    ensures AccumulateAll(0, d) as int == Decimal(d) % U32_MODULUS
    decreases |d|
  {
    if d != [] {
      var p, c := d[..|d| - 1], d[|d| - 1];
      assert d == p + [c];
      AccumulateIsDecimal(p);
      AccumulateSnoc(0, p, c);
      ModStep(Decimal(p), DigitValue(c));
    }
  }

  // ---------------------------------------------------------------------
  // The ROWS/COLS loop over digits

  /** A run of digits only feeds the accumulator of the current field. */
  lemma {:induction false} ScanDigits(d: seq<byte>, rest: Stream, state: ParseState, rows: u32, cols: u32)
    requires AllDigits(d) && state != Done
    ensures ScanFields(Lift(d) + rest, state, rows, cols)
         == Later(ScanFields(rest, state,
                             if state == Rows then AccumulateAll(rows, d) else rows,
                             if state == Cols then AccumulateAll(cols, d) else cols), |d|)
    decreases d
  {
    if d == [] {
      assert Lift(d) + rest == rest;
    } else {
      var s := Lift(d) + rest;
      assert s[0] == Some(d[0]);
      assert s[1..] == Lift(d[1..]) + rest;
      ScanDigits(d[1..], rest, state,
                 if state == Rows then Accumulate(rows, d[0]) else rows,
                 if state == Cols then Accumulate(cols, d[0]) else cols);
    }
  }

  /** The two fields, separator and terminator: the loop ends in Done right after the `t`. */
  lemma ScanFieldsRoundTrip(d1: seq<byte>, d2: seq<byte>, rest: Stream)
    requires AllDigits(d1) && AllDigits(d2)
    ensures ScanFields(Lift(d1 + [SEMICOLON] + d2 + [LETTER_T]) + rest, Rows, 0, 0)
         == Scan(Done, AccumulateAll(0, d1), AccumulateAll(0, d2), |d1| + |d2| + 2)
  {
    var tail := [Some(LETTER_T)] + rest;
    var afterRows := [Some(SEMICOLON)] + (Lift(d2) + tail);
    LiftAppend(d1 + [SEMICOLON] + d2, [LETTER_T]);
    LiftAppend(d1 + [SEMICOLON], d2);
    LiftAppend(d1, [SEMICOLON]);
    assert Lift(d1 + [SEMICOLON] + d2 + [LETTER_T]) + rest == Lift(d1) + afterRows;
    ScanDigits(d1, afterRows, Rows, 0, 0);
    assert afterRows[1..] == Lift(d2) + tail;
    ScanDigits(d2, tail, Cols, AccumulateAll(0, d1), 0);
  }

  /** From COLS, a loop that ends in Done has read digits and then the `t`. */
  lemma {:induction false} ScanColsComplete(s: Stream, rows: u32, cols: u32) returns (d2: seq<byte>)
    requires ScanFields(s, Cols, rows, cols).state == Done
    ensures AllDigits(d2) && StartsWith(s, d2 + [LETTER_T])
    ensures ScanFields(s, Cols, rows, cols) == Scan(Done, rows, AccumulateAll(cols, d2), |d2| + 1)
    decreases |s|
  {
    var ch := s[0].value;
    if ch == LETTER_T {
      d2 := [];
    } else {
      var d := ScanColsComplete(s[1..], rows, Accumulate(cols, ch));
      d2 := [ch] + d;
      assert d2[1..] == d;
    }
  }

  /** From ROWS, a loop that ends in Done has read digits, `;`, digits and `t`. */
  lemma {:induction false} ScanRowsComplete(s: Stream, rows: u32, cols: u32) returns (d1: seq<byte>, d2: seq<byte>)
    requires ScanFields(s, Rows, rows, cols).state == Done
    ensures AllDigits(d1) && AllDigits(d2) && StartsWith(s, d1 + [SEMICOLON] + d2 + [LETTER_T])
    ensures ScanFields(s, Rows, rows, cols)
         == Scan(Done, AccumulateAll(rows, d1), AccumulateAll(cols, d2), |d1| + |d2| + 2)
    decreases |s|
  {
    var ch := s[0].value;
    if ch == SEMICOLON {
      d1 := [];
      d2 := ScanColsComplete(s[1..], rows, cols);
      assert d1 + [SEMICOLON] + d2 + [LETTER_T] == [SEMICOLON] + (d2 + [LETTER_T]);
    } else {
      var d;
      d, d2 := ScanRowsComplete(s[1..], Accumulate(rows, ch), cols);
      d1 := [ch] + d;
      assert d1[1..] == d;
      assert d1 + [SEMICOLON] + d2 + [LETTER_T] == [ch] + (d + [SEMICOLON] + d2 + [LETTER_T]);
    }
  }

  // ---------------------------------------------------------------------
  // The stages of the whole reply

  /** A CSI in either form hands the rest of the stream to the size-report parser. */
  lemma ParseCsi(f: CsiForm, t: Stream)
    ensures ParseReply(Lift(CsiBytes(f)) + t) == Shift(ParseSizeReport(t), |CsiBytes(f)|)
  {
    var s := Lift(CsiBytes(f)) + t;
    SkipLifted(CsiBytes(f), t);
    if f == EightBit {
      assert Next(s) == Some(CSI_8BIT);
      assert CsiSpec(s) == Match(true, 1);
    } else {
      assert Next(s) == Some(ESC);
      assert Skip(s, 1)[0] == s[1] == Some(LEFT_BRACKET);
      assert CsiSpec(s) == Match(true, 2);
    }
  }

  /** After CSI and `8;`, the outcome is that of the ROWS/COLS loop. */
  lemma ParseAfterPrefix(f: CsiForm, t: Stream)
    ensures ParseReply(Lift(CsiBytes(f) + RESPONSE_PREFIX) + t)
         == var sc := ScanFields(t, Rows, 0, 0);
            Parsed(if sc.state == Done then Some(TermSize(sc.rows, sc.cols)) else None,
                   |CsiBytes(f)| + |RESPONSE_PREFIX| + sc.consumed)
  {
    LiftAppend(CsiBytes(f), RESPONSE_PREFIX);
    var u := Lift(RESPONSE_PREFIX) + t;
    assert Lift(CsiBytes(f) + RESPONSE_PREFIX) + t == Lift(CsiBytes(f)) + u;
    ParseCsi(f, t := u);
    assert StartsWith(u, RESPONSE_PREFIX) by {
      assert u[0] == Lift(RESPONSE_PREFIX)[0] && u[1] == Lift(RESPONSE_PREFIX)[1];
    }
    SkipLifted(RESPONSE_PREFIX, t);
  }

  /** Reading m outcomes and then n more is reading m + n. */
  lemma SkipSkip(s: Stream, m: nat, n: nat)
    ensures Skip(Skip(s, m), n) == Skip(s, m + n)
  {
  }

  /** Once the CSI and `8;` are matched, the reply's outcome is that of the ROWS/COLS loop. */
  lemma ParseReplyStages(s: Stream)
    requires CsiSpec(s).ok && ExpectSpec(Skip(s, CsiSpec(s).consumed), RESPONSE_PREFIX).ok
    ensures var start := CsiSpec(s).consumed + |RESPONSE_PREFIX|;
            var sc := ScanFields(Skip(s, start), Rows, 0, 0);
            ParseReply(s) == Parsed(if sc.state == Done then Some(TermSize(sc.rows, sc.cols)) else None,
                                    start + sc.consumed)
  {
    SkipSkip(s, CsiSpec(s).consumed, |RESPONSE_PREFIX|);
  }

  /** One step of expect: the read of `m[i]` decides, or hands over to the rest of `m`. */
  lemma ExpectStep(s: Stream, m: seq<byte>, i: nat)
    requires i < |m|
    ensures ExpectSpec(s, m[i..])
         == if Next(s) == Some(m[i])
            then var e := ExpectSpec(Skip(s, 1), m[i + 1..]); Match(e.ok, e.consumed + 1)
            else Match(false, 1)
  {
    assert m[i..][0] == m[i] && m[i..][1..] == m[i + 1..];
  }

  /**
   * ScanFields unfolded once, on a stream with at least one outcome: the
   * step a single iteration of the ROWS/COLS loop takes.  It repeats the
   * definition, with `Skip(s, 1)` for `s[1..]`, so that the loop proof can
   * apply it to the remaining input.
   */
  lemma ScanStep(s: Stream, state: ParseState, rows: u32, cols: u32)
    requires state != Done && |s| > 0
    ensures ScanFields(s, state, rows, cols)
         == match s[0]
            case None => Scan(state, rows, cols, 1)
            case Some(ch) =>
              if state == Rows then
                if ch == SEMICOLON then Later(ScanFields(Skip(s, 1), Cols, rows, cols), 1)
                else if !IsDigit(ch) then Scan(Rows, rows, cols, 1)
                else Later(ScanFields(Skip(s, 1), Rows, Accumulate(rows, ch), cols), 1)
              else
                if ch == LETTER_T then Scan(Done, rows, cols, 1)
                else if !IsDigit(ch) then Scan(Cols, rows, cols, 1)
                else Later(ScanFields(Skip(s, 1), Cols, rows, Accumulate(cols, ch)), 1)
  {
  }

  // ---------------------------------------------------------------------
  // Acceptance

  /**
   * Round trip: a reply CSI `8;` D1 `;` D2 `t` (either CSI form, either field
   * possibly empty) decodes to the decimal values of D1 and D2 modulo 2^32,
   * and nothing after the `t` is read.
   */
  lemma ParseReplyRoundTrip(f: CsiForm, d1: seq<byte>, d2: seq<byte>, rest: Stream)
    requires AllDigits(d1) && AllDigits(d2)
    ensures ParseReply(Lift(EncodeReply(f, d1, d2)) + rest)
         == Parsed(Some(Denoted(d1, d2)), |EncodeReply(f, d1, d2)|)
  {
    var body := d1 + [SEMICOLON] + d2 + [LETTER_T];
    assert EncodeReply(f, d1, d2) == (CsiBytes(f) + RESPONSE_PREFIX) + body;
    LiftAppend(CsiBytes(f) + RESPONSE_PREFIX, body);
    assert Lift(EncodeReply(f, d1, d2)) + rest == Lift(CsiBytes(f) + RESPONSE_PREFIX) + (Lift(body) + rest);
    ParseAfterPrefix(f, Lift(body) + rest);
    ScanFieldsRoundTrip(d1, d2, rest);
    AccumulateIsDecimal(d1);
    AccumulateIsDecimal(d2);
  }

  /** The stream begins with a well-formed window-size report. */
  ghost predicate BeginsWithSizeReport(s: Stream) {
    exists f, d1, d2 :: AllDigits(d1) && AllDigits(d2) && StartsWith(s, EncodeReply(f, d1, d2))
  }

  /**
   * The converse of the round trip: whatever the parser accepts begins with a
   * well-formed report, and the parser read exactly that report and decoded
   * its two fields.
   */
  lemma ParseReplyComplete(s: Stream) returns (f: CsiForm, d1: seq<byte>, d2: seq<byte>)
    requires ParseReply(s).size.Some?
    ensures AllDigits(d1) && AllDigits(d2) && StartsWith(s, EncodeReply(f, d1, d2))
    ensures ParseReply(s) == Parsed(Some(Denoted(d1, d2)), |EncodeReply(f, d1, d2)|)
  {
    var csi := CsiSpec(s);
    f := if StartsWith(s, CsiBytes(EightBit)) then EightBit else SevenBit;
    assert csi.ok && csi.consumed == |CsiBytes(f)| && StartsWith(s, CsiBytes(f));
    var t := Skip(s, csi.consumed);
    d1, d2 := SizeReportComplete(t);
    var body := RESPONSE_PREFIX + (d1 + [SEMICOLON] + d2 + [LETTER_T]);
    assert Skip(s, |CsiBytes(f)|) == t;
    StartsWithAppend(s, CsiBytes(f), body);
    EncodeReplyParts(f, d1, d2);
    assert |EncodeReply(f, d1, d2)| == csi.consumed + |d1| + |d2| + 4;
    AccumulateIsDecimal(d1);
    AccumulateIsDecimal(d2);
    assert Denoted(d1, d2) == TermSize(AccumulateAll(0, d1), AccumulateAll(0, d2));
    assert ParseReply(s) == Shift(ParseSizeReport(t), csi.consumed);
  }

  /** The size-report stage accepts only `8;` D1 `;` D2 `t`, read to its end. */
  lemma SizeReportComplete(t: Stream) returns (d1: seq<byte>, d2: seq<byte>)
    requires ParseSizeReport(t).size.Some?
    ensures AllDigits(d1) && AllDigits(d2)
    ensures StartsWith(t, RESPONSE_PREFIX + (d1 + [SEMICOLON] + d2 + [LETTER_T]))
    ensures ParseSizeReport(t)
         == Parsed(Some(TermSize(AccumulateAll(0, d1), AccumulateAll(0, d2))), |d1| + |d2| + 4)
  {
    var pre := ExpectSpec(t, RESPONSE_PREFIX);
    assert pre.ok && pre.consumed == 2;
    d1, d2 := ScanRowsComplete(Skip(t, 2), 0, 0);
    StartsWithAppend(t, RESPONSE_PREFIX, d1 + [SEMICOLON] + d2 + [LETTER_T]);
  }

  /** The parser reports a size exactly when the stream begins with a well-formed report. */
  lemma ParseReplyAcceptsExactly(s: Stream)
    ensures ParseReply(s).size.Some? <==> BeginsWithSizeReport(s)
  {
    if ParseReply(s).size.Some? {
      var f, d1, d2 := ParseReplyComplete(s);
    }
    if BeginsWithSizeReport(s) {
      var f, d1, d2 :| AllDigits(d1) && AllDigits(d2) && StartsWith(s, EncodeReply(f, d1, d2));
      StartsWithSplits(s, EncodeReply(f, d1, d2));
      ParseReplyRoundTrip(f, d1, d2, Skip(s, |EncodeReply(f, d1, d2)|));
    }
  }

  /** The 8-bit CSI and ESC `[` lead to the same result; the 7-bit form reads one byte more. */
  lemma CsiFormsAgree(t: Stream)
    ensures ParseReply(Lift(CsiBytes(EightBit)) + t).size == ParseReply(Lift(CsiBytes(SevenBit)) + t).size
    ensures ParseReply(Lift(CsiBytes(EightBit)) + t).consumed + 1 == ParseReply(Lift(CsiBytes(SevenBit)) + t).consumed
  {
    ParseCsi(EightBit, t);
    ParseCsi(SevenBit, t);
  }

  // ---------------------------------------------------------------------
  // Rejection

  /** In ROWS, a byte that is neither a digit nor `;` (a `t`, say) fails the query there. */
  lemma RejectsBadRowsByte(f: CsiForm, d1: seq<byte>, b: byte, rest: Stream)
    requires AllDigits(d1) && !IsDigit(b) && b != SEMICOLON
    ensures ParseReply(Lift(CsiBytes(f) + RESPONSE_PREFIX + d1 + [b]) + rest)
         == Parsed(None, |CsiBytes(f)| + |RESPONSE_PREFIX| + |d1| + 1)
  {
    var tail := [Some(b)] + rest;
    LiftAppend(CsiBytes(f) + RESPONSE_PREFIX + d1, [b]);
    LiftAppend(CsiBytes(f) + RESPONSE_PREFIX, d1);
    assert Lift(CsiBytes(f) + RESPONSE_PREFIX + d1 + [b]) + rest
        == Lift(CsiBytes(f) + RESPONSE_PREFIX) + (Lift(d1) + tail);
    ParseAfterPrefix(f, Lift(d1) + tail);
    ScanDigits(d1, tail, Rows, 0, 0);
  }

  /** In COLS, a byte that is neither a digit nor `t` (a second `;`, say) fails the query there. */
  lemma RejectsBadColsByte(f: CsiForm, d1: seq<byte>, d2: seq<byte>, b: byte, rest: Stream)
    requires AllDigits(d1) && AllDigits(d2) && !IsDigit(b) && b != LETTER_T
    ensures ParseReply(Lift(CsiBytes(f) + RESPONSE_PREFIX + d1 + [SEMICOLON] + d2 + [b]) + rest)
         == Parsed(None, |CsiBytes(f)| + |RESPONSE_PREFIX| + |d1| + |d2| + 2)
  {
    var tail := [Some(b)] + rest;
    var afterRows := [Some(SEMICOLON)] + (Lift(d2) + tail);
    var pre := CsiBytes(f) + RESPONSE_PREFIX;
    LiftAppend(pre + d1 + [SEMICOLON] + d2, [b]);
    LiftAppend(pre + d1 + [SEMICOLON], d2);
    LiftAppend(pre + d1, [SEMICOLON]);
    LiftAppend(pre, d1);
    assert Lift(pre + d1 + [SEMICOLON] + d2 + [b]) + rest == Lift(pre) + (Lift(d1) + afterRows);
    ParseAfterPrefix(f, Lift(d1) + afterRows);
    ScanDigits(d1, afterRows, Rows, 0, 0);
    assert afterRows[1..] == Lift(d2) + tail;
    ScanDigits(d2, tail, Cols, AccumulateAll(0, d1), 0);
  }

  /** A timeout inside the two fields, before the `t`, fails the loop right there. */
  lemma ScanTimeout(d1: seq<byte>, d2: seq<byte>, j: nat, rest: Stream)
    requires AllDigits(d1) && AllDigits(d2) && j < |d1| + |d2| + 2
    ensures var sc := ScanFields(Lift((d1 + [SEMICOLON] + d2 + [LETTER_T])[..j]) + ([None] + rest), Rows, 0, 0);
            sc.state != Done && sc.consumed == j + 1
  {
    var body := d1 + [SEMICOLON] + d2 + [LETTER_T];
    var tail := [None] + rest;
    if j <= |d1| {
      assert body[..j] == d1[..j];
      ScanDigits(d1[..j], tail, Rows, 0, 0);
    } else {
      var i := j - |d1| - 1;
      assert body[..j] == d1 + [SEMICOLON] + d2[..i];
      var afterRows := [Some(SEMICOLON)] + (Lift(d2[..i]) + tail);
      LiftAppend(d1 + [SEMICOLON], d2[..i]);
      LiftAppend(d1, [SEMICOLON]);
      assert Lift(body[..j]) + tail == Lift(d1) + afterRows;
      ScanDigits(d1, afterRows, Rows, 0, 0);
      assert afterRows[1..] == Lift(d2[..i]) + tail;
      ScanDigits(d2[..i], tail, Cols, AccumulateAll(0, d1), 0);
    }
  }

  /**
   * A timeout or read failure anywhere before the `t` of a well-formed reply
   * fails the query, and that failed read is the last one made.
   */
  lemma RejectsTimeout(f: CsiForm, d1: seq<byte>, d2: seq<byte>, k: nat, rest: Stream)
    requires AllDigits(d1) && AllDigits(d2) && k < |EncodeReply(f, d1, d2)|
    ensures ParseReply(Lift(EncodeReply(f, d1, d2)[..k]) + ([None] + rest)) == Parsed(None, k + 1)
  {
    var e := EncodeReply(f, d1, d2);
    var c := |CsiBytes(f)|;
    var tail := [None] + rest;
    var s := Lift(e[..k]) + tail;
    if k < c {
      assert s[k] == None;
      if k == 1 {
        assert s[0] == Lift(e[..k])[0];
      }
    } else if k < c + 2 {
      var i := k - c;
      assert e[..k] == CsiBytes(f) + RESPONSE_PREFIX[..i];
      LiftAppend(CsiBytes(f), RESPONSE_PREFIX[..i]);
      var u := Lift(RESPONSE_PREFIX[..i]) + tail;
      assert s == Lift(CsiBytes(f)) + u;
      ParseCsi(f, u);
      assert u[i] == None;
      if i == 1 {
        assert u[0] == Lift(RESPONSE_PREFIX[..i])[0];
      }
    } else {
      var j := k - c - 2;
      var body := d1 + [SEMICOLON] + d2 + [LETTER_T];
      assert e == (CsiBytes(f) + RESPONSE_PREFIX) + body;
      assert e[..k] == (CsiBytes(f) + RESPONSE_PREFIX) + body[..j];
      LiftAppend(CsiBytes(f) + RESPONSE_PREFIX, body[..j]);
      assert s == Lift(CsiBytes(f) + RESPONSE_PREFIX) + (Lift(body[..j]) + tail);
      ParseAfterPrefix(f, Lift(body[..j]) + tail);
      ScanTimeout(d1, d2, j, rest);
    }
  }

  // ---------------------------------------------------------------------
  // Worked replies

  /** ESC [ 8 ; 2 4 ; 8 0 t and its 8-bit twin both report 24 rows and 80 columns. */
  lemma Reply24By80(f: CsiForm)
    ensures ParseReply(Lift(EncodeReply(f, [0x32, 0x34], [0x38, 0x30]))).size == Some(TermSize(24, 80))
  {
    var d1: seq<byte>, d2: seq<byte> := [0x32, 0x34], [0x38, 0x30];
    var e := EncodeReply(f, d1, d2);
    assert Lift(e) + [] == Lift(e);
    ParseReplyRoundTrip(f, d1, d2, []);
    assert Decimal(d1) == 24 by { assert d1[..1] == [0x32]; }
    assert Decimal(d2) == 80 by { assert d2[..1] == [0x38]; }
  }

  /** `8;;t`: two empty fields report a 0 by 0 size. */
  lemma EmptyFieldsReportZero(f: CsiForm, rest: Stream)
    ensures ParseReply(Lift(CsiBytes(f) + [0x38, 0x3B, 0x3B, 0x74]) + rest).size == Some(TermSize(0, 0))
  {
    assert CsiBytes(f) + [0x38, 0x3B, 0x3B, 0x74] == EncodeReply(f, [], []);
    ParseReplyRoundTrip(f, [], [], rest);
  }
}

=== FILE: termio_raw.dfy ===
/**
 * termio_raw.c: the raw-mode session around a terminal and the window-size
 * query run inside it.
 *
 * The operating system is reduced to the device object `Tty`: the outcomes of
 * its system calls (isatty, the TCGETS, TCSETS and TIOCSWINSZ ioctls, write,
 * and the select-then-read of each timed read) are fixed when it is built,
 * and its termios, window size, read position and written bytes are the state
 * the session changes.
 */
module TermioRaw {
  import opened Options
  import opened Reply
  import opened Termios
  import opened ReplyLemmas

  newtype u16 = x: int | 0 <= x < 0x1_0000

  /** `struct winsize`: four `unsigned short` fields. */
  datatype WinSize = WinSize(row: u16, col: u16, xpixel: u16, ypixel: u16)

  /**
   * The window size pushed for a parsed size: rows and columns cut to 16 bits,
   * that is taken modulo 2^16 (kept as they are when they fit), no pixel sizes.
   */
  function WinSizeOf(sz: TermSize): (r: WinSize)
    ensures r.xpixel == 0 && r.ypixel == 0
    ensures r.row as int <= sz.rows as int && r.col as int <= sz.cols as int
    ensures sz.rows as int < 0x1_0000 ==> r.row as int == sz.rows as int
    ensures sz.cols as int < 0x1_0000 ==> r.col as int == sz.cols as int
    ensures (sz.rows as int - r.row as int) % 0x1_0000 == 0 && (sz.cols as int - r.col as int) % 0x1_0000 == 0
  {
    WinSize((sz.rows as int % 0x1_0000) as u16, (sz.cols as int % 0x1_0000) as u16, 0, 0)
  }

  /**
   * What write(2) returns when `len` bytes are offered to a device that takes
   * `room`: -1 on an error, otherwise the count accepted, never more than
   * offered; all of it exactly when there is room for all of it.
   */
  function WriteResult(room: int, len: nat): (r: int)
    ensures r < 0 <==> room < 0
    ensures r < 0 ==> r == -1
    ensures 0 <= r ==> r <= len && r <= room
    ensures r == len <==> len <= room
  {
    if room < 0 then -1 else if room < len then room else len
  }

  /** A terminal device and the outcomes of the system calls made on it. */
  class Tty {
    const isTerminal: bool      // isatty()
    const getAttrFails: bool    // ioctl(TCGETS) fails
    const setAttrFails: bool    // ioctl(TCSETS) in termio_init fails
    const restoreFails: bool    // ioctl(TCSETS) in termio_finish fails
    const setWinSizeFails: bool // ioctl(TIOCSWINSZ) fails
    const writeRoom: int        // bytes a write() takes; negative when write() fails
    const input: Stream         // the outcome of each timed read, in order
    var pos: nat                // timed reads made so far
    var termios: Termios
    var winsize: WinSize
    var output: seq<byte>        // every byte written so far

    constructor (isTerminal: bool, getAttrFails: bool, setAttrFails: bool, restoreFails: bool,
                 setWinSizeFails: bool, writeRoom: int, input: Stream, termios: Termios, winsize: WinSize)
      ensures this.isTerminal == isTerminal && this.getAttrFails == getAttrFails
      ensures this.setAttrFails == setAttrFails && this.restoreFails == restoreFails
      ensures this.setWinSizeFails == setWinSizeFails
      ensures this.writeRoom == writeRoom && this.input == input
      ensures this.termios == termios && this.winsize == winsize
      ensures pos == 0 && output == []
    {
      this.isTerminal, this.getAttrFails, this.setAttrFails := isTerminal, getAttrFails, setAttrFails;
      this.restoreFails := restoreFails;
      this.setWinSizeFails, this.writeRoom, this.input := setWinSizeFails, writeRoom, input;
      this.termios, this.winsize := termios, winsize;
      pos, output := 0, [];
    }
  }

  /** The caller's `struct termio_termsize_s` that `sz` points to. */
  class SizeOut {
    var value: TermSize
  }

  /**
   * `struct termio_ctx_s`: the terminal, the settings saved before raw mode
   * and the read timeout.  The saved settings never change once captured.
   */
  class Session {
    const tty: Tty
    const saved: Termios
    var timeoutSec: nat
    /** The session has been set up and not yet finished. */
    ghost var open: bool

    /** The zeroed context with the settings copied in, before raw mode is applied. */
    constructor (tty: Tty, saved: Termios)
      ensures this.tty == tty && this.saved == saved && timeoutSec == 0 && !open
    {
      this.tty, this.saved := tty, saved;
      timeoutSec := 0;
      open := false;
    }

    /** timed_readchar: the next read outcome, a byte or a timeout/failure. */
    method TimedReadChar() returns (r: Option<byte>)
      requires open
      modifies tty`pos
      ensures r == Next(Skip(tty.input, old(tty.pos))) && tty.pos == old(tty.pos) + 1
    {
      r := Next(Skip(tty.input, tty.pos));
      tty.pos := tty.pos + 1;
    }

    /** expect_csi: reads a CSI in either form. */
    method ExpectCsi() returns (ok: bool)
      requires open
      modifies tty`pos
      ensures var m := CsiSpec(Skip(tty.input, old(tty.pos)));
              ok == m.ok && tty.pos == old(tty.pos) + m.consumed
    {
      SkipSkip(tty.input, tty.pos, 1);
      var ch := TimedReadChar();
      if ch.None? {
        return false;
      }
      if ch.value == CSI_8BIT {
        return true;
      }
      if ch.value != ESC {
        return false;
      }
      ch := TimedReadChar();
      if ch.None? {
        return false;
      }
      return ch.value == LEFT_BRACKET;
    }

    /** expect: reads the bytes of `m` one by one, stopping at the first mismatch or timeout. */
    method Expect(m: seq<byte>) returns (ok: bool)
      requires open
      modifies tty`pos
      ensures var e := ExpectSpec(Skip(tty.input, old(tty.pos)), m);
              ok == e.ok && tty.pos == old(tty.pos) + e.consumed
    {
      ghost var start := tty.pos;
      ghost var whole := ExpectSpec(Skip(tty.input, start), m);
      var i := 0;
      while i < |m|
        modifies tty`pos
        invariant 0 <= i <= |m| && tty.pos == start + i
        invariant whole.ok == ExpectSpec(Skip(tty.input, tty.pos), m[i..]).ok
        invariant whole.consumed == ExpectSpec(Skip(tty.input, tty.pos), m[i..]).consumed + i
      {
        ghost var rest := Skip(tty.input, tty.pos);
        SkipSkip(tty.input, tty.pos, 1);
        ExpectStep(rest, m, i);
        var ch := TimedReadChar();
        if ch.None? || ch.value != m[i] {
          return false;
        }
        i := i + 1;
      }
      return true;
    }

    /**
     * termio_termsize_setup: writes the query, reads and parses the reply,
     * and on success pushes the size to the driver and into `sz`.  Returns 0
     * on success and -1 on failure; a failure leaves the window size and `sz`
     * alone, and a short write fails before anything is read.
     */
    method TermsizeSetup(sz: SizeOut?) returns (rc: int)
      requires open
      modifies tty`pos, tty`output, tty`winsize, sz
      ensures var n := WriteResult(tty.writeRoom, |TERMSIZE_QUERY|);
              tty.output == old(tty.output) + TERMSIZE_QUERY[..if n < 0 then 0 else n]
      ensures WriteResult(tty.writeRoom, |TERMSIZE_QUERY|) != |TERMSIZE_QUERY| ==>
                rc == -1 && tty.pos == old(tty.pos)
                && tty.winsize == old(tty.winsize) && (sz != null ==> sz.value == old(sz.value))
      ensures WriteResult(tty.writeRoom, |TERMSIZE_QUERY|) == |TERMSIZE_QUERY| ==>
                var p := ParseReply(Skip(tty.input, old(tty.pos)));
                && tty.pos == old(tty.pos) + p.consumed
                && rc == (if p.size.Some? then 0 else -1)
                && (p.size.None? ==> tty.winsize == old(tty.winsize) && (sz != null ==> sz.value == old(sz.value)))
                && (p.size.Some? ==> tty.winsize == (if tty.setWinSizeFails then old(tty.winsize) else WinSizeOf(p.size.value))
                                     && (sz != null ==> sz.value == p.size.value))
    {
      // write(); tcdrain() only waits for the bytes to leave, so it changes nothing here
      var n := WriteResult(tty.writeRoom, |TERMSIZE_QUERY|);
      tty.output := tty.output + TERMSIZE_QUERY[..if n < 0 then 0 else n];
      if n != |TERMSIZE_QUERY| {
        return -1;
      }
      var size := ReadReply();
      if size.None? {
        return -1;
      }
      // ioctl(TIOCSWINSZ); its result is ignored
      if !tty.setWinSizeFails {
        tty.winsize := WinSizeOf(size.value);
      }
      if sz != null {
        sz.value := size.value;
      }
      return 0;
    }

    /**
     * The reading half of termio_termsize_setup: expect_csi, expect of `8;`
     * and the ROWS/COLS/DONE loop.  None stands for each of its `return -1`s.
     */
    method ReadReply() returns (size: Option<TermSize>)
      requires open
      modifies tty`pos
      ensures var p := ParseReply(Skip(tty.input, old(tty.pos)));
              size == p.size && tty.pos == old(tty.pos) + p.consumed
    {
      ghost var s := Skip(tty.input, tty.pos);
      var ok := ExpectCsi();
      if !ok {
        return None;
      }
      ghost var c := CsiSpec(s).consumed;
      SkipSkip(tty.input, old(tty.pos), c);
      ok := Expect(RESPONSE_PREFIX);
      if !ok {
        return None;
      }
      SkipSkip(tty.input, old(tty.pos) + c, |RESPONSE_PREFIX|);
      ParseReplyStages(s);
      size := ReadFields();
    }

    /**
     * The ROWS/COLS/DONE loop of termio_termsize_setup: it accumulates digits
     * into rows until `;`, then into cols until `t`.  A timeout, or a
     * non-digit other than the expected separator, ends it without a size.
     */
    method ReadFields() returns (size: Option<TermSize>)
      requires open
      modifies tty`pos
      ensures var sc := ScanFields(Skip(tty.input, old(tty.pos)), Rows, 0, 0);
              size == (if sc.state == Done then Some(TermSize(sc.rows, sc.cols)) else None)
              && tty.pos == old(tty.pos) + sc.consumed
    {
      ghost var start := tty.pos;
      ghost var whole := ScanFields(Skip(tty.input, start), Rows, 0, 0);
      var rows: u32, cols: u32 := 0, 0;
      var state := Rows;
      while true
        invariant state != Done && tty.pos >= start
        invariant whole == Later(ScanFields(Skip(tty.input, tty.pos), state, rows, cols), tty.pos - start)
        decreases |tty.input| - tty.pos
      {
        ghost var rest := Skip(tty.input, tty.pos);
        SkipSkip(tty.input, tty.pos, 1);
        var ch := TimedReadChar();
        if ch.None? {
          break;
        }
        ScanStep(rest, state, rows, cols);
        if state == Rows {
          if ch.value == SEMICOLON {
            state := Cols;
            continue;
          }
          if !IsDigit(ch.value) {
            break;
          }
          rows := Accumulate(rows, ch.value);
        } else if state == Cols {
          if ch.value == LETTER_T {
            state := Done;
            break;
          }
          if !IsDigit(ch.value) {
            return None;
          }
          cols := Accumulate(cols, ch.value);
        }
      }
      if state != Done {
        return None;
      }
      return Some(TermSize(rows, cols));
    }

    /** termio_finish: writes the saved settings back; a failure to do so is ignored. */
    method Finish()
      requires open
      modifies this`open, tty`termios
      ensures !open
      ensures tty.termios == if tty.restoreFails then old(tty.termios) else saved
    {
      if !tty.restoreFails {
        tty.termios := saved;
      }
      open := false;
    }
  }

  /**
   * termio_init: checks the descriptor is a terminal, reads its settings,
   * allocates the context holding a copy of them, and applies raw mode.
   * Returns null when any of these fails; then the device keeps its settings.
   */
  method Init(tty: Tty, allocFails: bool) returns (ctx: Session?)
    modifies tty`termios
    ensures ctx != null <==> tty.isTerminal && !tty.getAttrFails && !allocFails && !tty.setAttrFails
    ensures ctx == null ==> tty.termios == old(tty.termios)
    ensures ctx != null ==> fresh(ctx) && ctx.tty == tty && ctx.open && ctx.timeoutSec == 1
                            && ctx.saved == old(tty.termios) && tty.termios == RawMode(old(tty.termios))
  {
    if !tty.isTerminal {
      return null;
    }
    if tty.getAttrFails {
      return null;
    }
    var tios := tty.termios;
    if allocFails {
      return null;
    }
    var c := new Session(tty, tios);
    tios := tios.(iflag := tios.iflag & !(IGNBRK | BRKINT | PARMRK | ISTRIP | INLCR | IGNCR | ICRNL | IXON));
    tios := tios.(oflag := tios.oflag & !OPOST);
    tios := tios.(lflag := tios.lflag & !(ICANON | ECHO | ISIG | IEXTEN));
    tios := tios.(cflag := tios.cflag & !(CSIZE | PARENB));
    tios := tios.(cflag := tios.cflag | CS8);
    if tty.setAttrFails {
      ctx := null;
    } else {
      tty.termios := tios;
      c.timeoutSec := 1;
      c.open := true;
      ctx := c;
    }
  }

  /**
   * The lifecycle a caller follows: set up, query, finish.  Whatever the
   * query does, the terminal ends with the settings it had before, unless
   * raw mode was entered and the restore then failed: then it stays raw.
   */
  method QueryAndRestore(tty: Tty, allocFails: bool, sz: SizeOut?) returns (rc: int)
    modifies tty`termios, tty`pos, tty`output, tty`winsize, sz
    ensures rc == 0 || rc == -1
    ensures rc != 0 && sz != null ==> sz.value == old(sz.value)
    ensures var entered := tty.isTerminal && !tty.getAttrFails && !allocFails && !tty.setAttrFails;
            tty.termios == if entered && tty.restoreFails then RawMode(old(tty.termios)) else old(tty.termios)
    ensures var p := ParseReply(Skip(tty.input, old(tty.pos)));
            rc == 0 <==> tty.isTerminal && !tty.getAttrFails && !allocFails && !tty.setAttrFails
                         && WriteResult(tty.writeRoom, |TERMSIZE_QUERY|) == |TERMSIZE_QUERY|
                         && p.size.Some?
    ensures rc == 0 && sz != null ==> sz.value == ParseReply(Skip(tty.input, old(tty.pos))).size.value
  {
    var ctx := Init(tty, allocFails);
    if ctx == null {
      return -1;
    }
    rc := ctx.TermsizeSetup(sz);
    ctx.Finish();
  }
}

=== FILE: termios.dfy ===
/**
 * The line-discipline settings that termio_init switches to raw mode.  The
 * flag words are 32-bit `tcflag_t` values; the flag constants are those of
 * Linux (the source uses the Linux-only TCGETS and TCSETS requests).
 */
module Termios {

  /** The kernel's `struct termios`: four flag words, the line discipline and the control characters. */
  datatype Termios = Termios(iflag: bv32, oflag: bv32, cflag: bv32, lflag: bv32, line: bv8, cc: seq<bv8>)

  // c_iflag
  const IGNBRK: bv32 := 0x0001
  const BRKINT: bv32 := 0x0002
  const PARMRK: bv32 := 0x0008
  const ISTRIP: bv32 := 0x0020
  const INLCR: bv32 := 0x0040
  const IGNCR: bv32 := 0x0080
  const ICRNL: bv32 := 0x0100
  const IXON: bv32 := 0x0400

  // c_oflag
  const OPOST: bv32 := 0x0001

  // c_cflag
  const CSIZE: bv32 := 0x0030
  const CS8: bv32 := 0x0030
  const PARENB: bv32 := 0x0100

  // c_lflag
  const ISIG: bv32 := 0x0001
  const ICANON: bv32 := 0x0002
  const ECHO: bv32 := 0x0008
  const IEXTEN: bv32 := 0x8000

  /** The input flags raw mode clears. */
  const RAW_IFLAG_CLEAR: bv32 := IGNBRK | BRKINT | PARMRK | ISTRIP | INLCR | IGNCR | ICRNL | IXON
  /** The local flags raw mode clears. */
  const RAW_LFLAG_CLEAR: bv32 := ICANON | ECHO | ISIG | IEXTEN
  /** The control flags raw mode rewrites. */
  const RAW_CFLAG_MASK: bv32 := CSIZE | PARENB

  /**
   * The settings termio_init applies: no break, parity-mark, strip or CR/NL
   * translation and no XON/XOFF on input; no output post-processing; no
   * canonical editing, echo, signal characters or extended input processing;
   * eight data bits without parity.  Every other bit, the line discipline and
   * the control characters are kept.
   */
  function RawMode(t: Termios): (r: Termios)
    ensures r.iflag & IGNBRK == 0 && r.iflag & BRKINT == 0 && r.iflag & PARMRK == 0
         && r.iflag & ISTRIP == 0 && r.iflag & INLCR == 0 && r.iflag & IGNCR == 0
         && r.iflag & ICRNL == 0 && r.iflag & IXON == 0
    ensures r.iflag | RAW_IFLAG_CLEAR == t.iflag | RAW_IFLAG_CLEAR
    ensures r.oflag & OPOST == 0 && r.oflag | OPOST == t.oflag | OPOST
    ensures r.lflag & ICANON == 0 && r.lflag & ECHO == 0 && r.lflag & ISIG == 0 && r.lflag & IEXTEN == 0
    ensures r.lflag | RAW_LFLAG_CLEAR == t.lflag | RAW_LFLAG_CLEAR
    ensures r.cflag & CSIZE == CS8 && r.cflag & PARENB == 0
    ensures r.cflag | RAW_CFLAG_MASK == t.cflag | RAW_CFLAG_MASK
    ensures r.line == t.line && r.cc == t.cc
  {
    t.(iflag := t.iflag & !RAW_IFLAG_CLEAR,
       oflag := t.oflag & !OPOST,
       lflag := t.lflag & !RAW_LFLAG_CLEAR,
       cflag := (t.cflag & !RAW_CFLAG_MASK) | CS8)
  }
}
